=== FILE: README.md ===
# docs-resolver index builder, modelled in Dafny

This project models the core of the docs-resolver index builder (`index.go`).
The builder works on one directory group at a time. Each group is a list of
files, and each file is tagged as content (`.md`) or manifest (`.toml`).
`deepResolver` turns a group into a module record:

- it decodes every manifest;
- it builds a case-insensitive lookup from page naming to page;
- it attaches content paths to the declared pages;
- it hands the result to `Index.Append`.

`Index.Append` skips a module key that a binary search over `Modules` already
finds. Otherwise it appends the key and stores the module record. `resolver`
runs `deepResolver` over every group.

Modules:

- `Wrappers`: `Option` and `Result`.
- `Text`: ASCII `strings.ToLower`, and Go's string order, compared by code point.
- `Paths`: `filepath.Split`, `filepath.Ext`, and the walk's extension switch.
- `Search`: `slices.BinarySearch`, as a lower-bound search.
- `Docs`: the index types, the module record that `Append` emits, and `Append` itself.
- `Resolution`: the manifest loop and the content loop of `deepResolver`, then `deepResolver` and `resolver`.
- `Scenarios` and `Collisions`: whole runs on small concrete groups.

In Go, the lookup and `Pages` share `*Page` pointers. The model keeps each
group's page records in a store addressed by id. `Pages` is a sequence of ids
and the lookup maps keys to ids. So an assignment through the lookup
(`page._path = …`) is visible through `Pages`, as it is in Go.

Manifest decoding (`ReadPageIndex`) is a parameter `read: string -> Option<Manifest>`.
`None` stands for a decoding error.

Behaviours of the code a reader might not expect, all of which the model keeps:

- every manifest of a group overwrites the module name, description, page list and directory;
- the lookup accumulates keys across all manifests, so a key declared only by an earlier manifest still reaches that manifest's page, which is no longer on the page list;
- `Append` adds a new key at the END of `Modules`, not at its sorted position;
- a group without a manifest is filed under the key `""`, not under its group key;
- declared pages with no matching content file are kept with an empty path, not dropped;
- a content file whose full path is already a lookup key is skipped;
- `resolver` stops at the first decoding failure but still returns a nil error.

## Model

| member | source | states |
|---|---|---|
| Text.Lower | index.go:105 | `strings.ToLower` on ASCII, the same length as its input; its meaning is stated by `Text.LowerSpec` and `Text.LowerEqIffSameUpToCase` |
| Text.LowerSpec | index.go:105 | lower-casing leaves no upper-case ASCII letter, keeps every other character, and moves each letter 32 code points up |
| Text.LowerEqIffSameUpToCase | index.go:125 | two namings get the same lookup key exactly when they differ only in the case of letters, position by position |
| Text.LowerIdempotent | index.go:105 | lower-casing an already lower-cased key changes nothing |
| Text.Less | index.go:51 | the `<` that `sort.SearchStrings` compares module keys with, in code-point order; `Text.LessIsStrictTotalOrder` shows it is a strict total order |
| Text.LessIrreflexive | index.go:51 | no string is below itself in Go's string order |
| Text.LessTransitive | index.go:51 | the string order is transitive |
| Text.LessTotal | index.go:51 | any two different strings are ordered one way or the other |
| Text.LeqTransitive | index.go:51 | the non-strict string order is transitive |
| Text.LessIsStrictTotalOrder | index.go:51 | the order the binary search relies on is a strict total order |
| Paths.SlashStartFindsLastSlash | index.go:96 | the split point is a '/' and no '/' follows it |
| Paths.SlashStartSkips | index.go:118 | characters other than '/' after a position do not move the split point |
| Paths.BaseHasNoSlash | index.go:118 | the file name `filepath.Split` returns holds no '/' |
| Paths.Split | index.go:96 | `filepath.Split`: directory and file name around the last '/'; `Paths.SplitJoins` states they rebuild the path |
| Paths.SplitJoins | index.go:96 | directory plus file name is the whole path; the directory is empty or ends in '/'; the name has no '/' |
| Paths.ExtStartFindsLastDot | index.go:125 | the extension starts at a '.' with neither '.' nor '/' after it |
| Paths.Ext | index.go:125 | `filepath.Ext`: the suffix from the last '.' of the last path element; `Paths.ExtIsLastDotSuffix` and `Paths.NoExtIffNoDot` state its shape and when it is empty |
| Paths.ExtIsLastDotSuffix | index.go:125 | `filepath.Ext` is a suffix of the name that is empty or one '.' followed by neither '.' nor '/' |
| Paths.NoExtIffNoDot | index.go:162 | a path has no extension exactly when its last element holds no '.' |
| Paths.NoExtScan | index.go:162 | the dot scan fails exactly when no '.' lies between the last '/' and the scan's end |
| Paths.StripExt | index.go:125 | `name[:len(name)-len(filepath.Ext(name))]`; `Paths.StripExtJoins` states that it and the extension rebuild the name |
| Paths.StripExtJoins | index.go:125 | the name without its extension, followed by the extension, is the name again |
| Paths.Classify | index.go:162-182 | the walk's tag switch on the extension; `Paths.ContentIffMdSuffix`, `Paths.ManifestIffTomlSuffix` and `Paths.OtherFilesDropped` state which names get which tag |
| Paths.ContentIffMdSuffix | index.go:162-182 | a file is tagged 0 (content) exactly when its name ends in ".md" |
| Paths.ManifestIffTomlSuffix | index.go:162-182 | a file is tagged 1 (manifest) exactly when its name ends in ".toml" |
| Paths.OtherFilesDropped | index.go:162-185 | a file is left out of every group exactly when its name ends in neither ".md" nor ".toml" |
| Search.SortedBelow | index.go:51 | in a sorted slice, everything before an element below the target is below it too |
| Search.SortedAbove | index.go:51 | in a sorted slice, everything after an element not below the target is not below it either |
| Search.LowerBound | index.go:51 | the bisection stays in its window and, on a sorted slice, returns the split between keys below the target and the rest |
| Search.LowerBoundMembership | index.go:51 | on a sorted slice, the key at the lower bound is the target exactly when the target is present |
| Search.BinarySearch | index.go:51 | a reported hit is at the returned position; on a sorted slice a hit means membership, and the position is the lower bound |
| Search.UnsortedMiss | index.go:51 | on the unsorted slice ["b", "a"] the search misses the present key "a" |
| Search.SortedAppend | index.go:55 | appending to a sorted slice keeps it sorted exactly when the slice is empty or the new key is not below its last element |
| Docs.Emit | index.go:63-70 | one output page per declared id, in order, each carrying the record's path, title, description and authors |
| Docs.Append | index.go:50-72 | a hit leaves the index unchanged; a miss appends the key at the end of `Modules` and stores the module record, leaving other entries alone; `Modules` and `Pages` stay in step |
| Docs.Summary | index.go:57-70 | the module record built from a group: one output page per declared page, in order, each with that page's path, title, description and authors |
| Docs.SummaryKeepsEveryPage | index.go:57-70 | the module record has exactly one page per declared page; a page with no content keeps an empty path instead of being dropped |
| Docs.AppendSortedness | index.go:51-55 | on a sorted index, a miss keeps `Modules` sorted exactly when the new key is above the last key, or the list is empty |
| Docs.AppendTwiceWhenSorted | index.go:50-55 | on a sorted index with the key at or above the end, appending the same group twice equals appending it once |
| Docs.AppendDuplicatesOnUnsorted | index.go:50-55 | on the unsorted index ["b", "a"], appending "a" adds a second "a" |
| Resolution.AddLookups | index.go:104-106 | the lookup after `_index[strings.ToLower(page.Naming)] = page` for each declaration in order; `Resolution.LookupHasEveryKey` states which keys it holds and where they point |
| Resolution.LookupHasEveryKey | index.go:104-106 | after a manifest's loop, earlier keys are still present and every declared lower-cased naming is a key pointing into that manifest's pages |
| Resolution.LookupLastDeclaredWins | index.go:104-106 | when declarations collide after lower-casing, the last of them owns the key |
| Resolution.LookupEntriesAreDeclared | index.go:104-106 | every key is an untouched earlier key or points to a declaration that lower-cases to it |
| Resolution.FreshRecordsSpec | index.go:103 | the i-th new record is the i-th declaration with no path |
| Resolution.IdRangeSpec | index.go:103 | the new page list holds consecutive fresh ids, in declaration order |
| Resolution.Absorb | index.go:94-106 | one decoded manifest sets the module key, directory, name and description, gives the page list the manifest's length (`AbsorbRecords` gives its ids and records), and keeps the lookup consistent with the records |
| Resolution.AbsorbStore | index.go:101-103 | earlier records stay in place, and the manifest's page i becomes a fresh record at id i past the end of the old store |
| Resolution.AbsorbRecords | index.go:101-103 | after one manifest, earlier records are kept and page i is the i-th declaration with no path |
| Resolution.AbsorbKeepsPathsClear | index.go:101-103 | the records a manifest adds carry no content path |
| Resolution.AbsorbCoherent | index.go:103-106 | every lookup entry points to a record whose naming lower-cases to the key |
| Resolution.AbsorbLookup | index.go:104-106 | one manifest keeps earlier keys, adds all its keys (the last declaration owning each), and leaves keys it does not declare untouched |
| Resolution.LoadUpTo | index.go:93-108 | the manifest loop fails exactly when some manifest fails to decode, and then with a decoding error (`LoadFailsAtFirst` says which); otherwise the state is consistent; a group without manifests keeps the empty state |
| Resolution.LoadFailsAtFirst | index.go:97-99 | the manifest loop ends with the decoding error of the FIRST manifest that fails to decode |
| Resolution.LoadPathsClear | index.go:93-108 | after the manifest loop no record has a content path yet |
| Resolution.LoadLastManifestWins | index.go:93-108 | the state carries the LAST manifest's directory, name, description and pages, under the group key, and that manifest's keys own their entries |
| Resolution.NamingKeysSpec | index.go:104-106 | the key set a manifest adds is exactly the lower-cased namings of its declarations |
| Resolution.LookupKeys | index.go:104-106 | the keys after a manifest are the earlier keys plus its declared keys |
| Resolution.DeclaredKeysSpec | index.go:93-107 | a key is declared by the first n files exactly when one of those files declares it |
| Resolution.LoadOne | index.go:94-106 | one step of the manifest loop: content files pass, a manifest that fails to decode stops with its path, a decoded one is absorbed; `Resolution.LoadOneKeys` and `Resolution.Absorb` state its effect |
| Resolution.LoadOneKeys | index.go:94-106 | one loop step adds exactly the file's declared keys to the lookup |
| Resolution.LoadLookupKeys | index.go:93-108 | after n files the lookup's keys are exactly the keys declared by those files |
| Resolution.LoadLookupAccumulates | index.go:93-108 | every naming of every decoded manifest of the group is a key, and every key comes from such a naming |
| Resolution.Attach | index.go:121 | `page._path = metadata.Path` through the shared record; `Resolution.AttachSpec` states that only that record's path changes |
| Resolution.AttachSpec | index.go:121 | attaching a path changes only that record's path |
| Resolution.MatchOne | index.go:110-128 | one content-loop step fails exactly on an `index.md` with no "" entry; otherwise it writes the path into the record the file targets and changes nothing else |
| Resolution.MatchUpTo | index.go:110-128 | the content loop fails exactly when some file is an `index.md` with no "" entry, and otherwise changes only record paths |
| Resolution.MatchOneEffect | index.go:126 | a targeted record takes the file's path; any other record keeps its path |
| Resolution.MatchStepPath | index.go:110-128 | one more file gives a record that file's path if the file targets it, and the earlier path otherwise |
| Resolution.MatchFollowsPathAfter | index.go:110-128 | the content loop leaves each record with the path its reference definition gives |
| Resolution.PathAfterUntargeted | index.go:125-127 | a record that no file targets keeps its starting path |
| Resolution.PathAfterLastTarget | index.go:125-127 | a record ends with the path of the last file that targets it |
| Resolution.MatchLastWriterWins | index.go:110-128 | after the content loop each record holds the path of the last file targeting it, or its old path when none does |
| Resolution.ContentKey | index.go:118-125 | the key a content file is looked up under: "" for `index.md`, otherwise its lower-cased name without extension; `Resolution.RootPageOnlyToEmptyNaming` and `Resolution.ContentMatchesCaseInsensitively` state which pages it reaches |
| Resolution.RootPageOnlyToEmptyNaming | index.go:120-122 | an `index.md` reaches only the "" entry, so only a page declared with an empty naming |
| Resolution.ContentMatchesCaseInsensitively | index.go:118-127 | for a page that owns its lower-cased key, any content file other than `index.md` whose full path is not itself a key reaches it exactly when the file's name without extension equals the page's naming up to case; a page whose key a later declaration took over is reached by no file |
| Resolution.DeepResolve | index.go:88-132 | fails with a decoding error exactly when a manifest does not decode; without manifests it crashes exactly on an `index.md`, else files an empty record under ""; on success the key is indexed, at most one key is added, and consistency is kept |
| Resolution.Resolved | index.go:110-131 | the content loop followed by `Append`: crashes only on the missing root entry, and otherwise indexes the module key and adds at most one key |
| Resolution.LoadFiledUnder | index.go:95 | the module key is the group key when the group has a manifest, and "" otherwise |
| Resolution.LoadKeyIsGroupKey | index.go:94-95 | once a manifest has been seen, the module key is the group key |
| Resolution.GroupPages | index.go:88-132 | the appended record lists every page of the last manifest in order, with its title, description and authors; its path is that of the last content file matched to it, or empty |
| Resolution.SummaryPaths | index.go:63-70 | each emitted page carries its matched path and its record's declared metadata |
| Resolution.RunGroups | index.go:134-139 | the group loop stops only at a decoding error, crashes only on a missing root entry, and otherwise only appends keys, at most one per group |
| Resolution.Resolve | index.go:134-141 | `resolver` never reports a decoding error, only the crash, and keeps the index consistent |
| Resolution.HaltedIgnoresRest | index.go:135-138 | once the loop has stopped, the groups after it have no effect |
| Resolution.CompletedContinues | index.go:135-139 | a loop that completes some groups continues from the index those groups left |
| Resolution.ResolveSwallowsParseError | index.go:136-137 | a group whose manifest fails to decode ends `resolver` with a nil error and the index the earlier groups left, whatever groups follow |
| Scenarios.GuideLoad | index.go:93-108 | the manifest loop over a concrete group gives the expected state |
| Scenarios.GuideMatch | index.go:110-128 | the content loop attaches `start.md` to page "start" and ignores `stray.md` |
| Scenarios.GuideAppend | index.go:50-72 | appending that state to the empty index gives one module with one page |
| Scenarios.GuideScenario | index.go:88-132 | `deepResolver` on the concrete group gives that one-module index |
| Collisions.LooseGroup | index.go:88-132 | a group with a plain content file and no manifest appends the empty state under "" |
| Collisions.MissBelow | index.go:51 | the search misses "" in ["b"], and again in the unsorted ["b", ""] |
| Collisions.LooseAppend | index.go:130 | a manifest-less group whose "" the search misses appends one more "" |
| Collisions.LooseGroupsDuplicate | index.go:50-55 | two manifest-less groups after "b" leave `Modules` as ["b", "", ""]: unsorted, with a duplicate |

## Left out

- The directory walk (`filepath.Walk`, `fs.FileInfo`) and the group-key derivation with `path.Clean` and slicing (index.go:153-169). Groups are inputs: a key and a list of tagged files.
- TOML decoding in `ReadPageIndex`. It is a foreign library, so it is the parameter `read`.
- The JSON encoding, the flags, and the file handling of `resolver.go`. This is I/O and command-line plumbing.
- Go map iteration order in `resolver`. The groups are an input sequence in any order, so an unsorted `Modules` with duplicate keys can arise, as `Collisions` shows.
- The `len(mp)-1` capacity hint (index.go:91). It appears only as the requirement that a group has at least one file, which the walk guarantees.
- The nil dereference at index.go:121. It is a panic, modelled as the error `NilRootPage` that `resolver` passes on as a crash (`Panicked`).
- Paths: `filepath.Split` and `filepath.Ext` follow Unix semantics, with '/' as the only separator and no volume names. On Windows Go also splits on '\\' and skips a volume name, which would change base names, the `index.md` test and the page keys.
- Text.LowerSpec: lower-cases ASCII letters only, because Unicode case folding is not modelled.
- Strings: paths, namings and module keys are sequences of Unicode scalar values, and `Text.Less` compares them by code point, which orders valid UTF-8 the same as Go's byte comparison. Names that are not valid UTF-8 are outside the model.
- The in-place mutation of `*Index`. `Append`, `deepResolver` and `resolver` return the new index instead of changing it.

=== FILE: index.dfy ===
/**
 * The documentation index and its deduplicating `Index.Append`.
 *
 * A group's `PageIndex` owns its page records through pointers that are shared
 * between its declared page list and its naming lookup. Here the records live
 * in a `store` addressed by id; `pages` and `lookup` hold ids, so a path
 * written through the lookup is seen through the page list.
 */
module Docs {
  import opened Text
  import opened Search

  /** One `[[pages]]` entry of a manifest as the TOML decoder fills it. */
  datatype Decl = Decl(naming: string, title: string, desc: string, authors: seq<string>)

  /** A decoded manifest: module name, description and declared pages in order. */
  datatype Manifest = Manifest(moduleName: string, desc: string, pages: seq<Decl>)

  /** A page record: its declaration plus the content path the resolver attaches (Go's unexported `_path`). */
  datatype Page = Page(path: string, decl: Decl)

  type PageId = nat

  /**
   * The resolver's working state for one group: the module key (`_naming`),
   * the manifest's directory (`_path`), the lower-cased naming lookup
   * (`_index`), the manifest's fields, and the page store.
   */
  datatype PageIndex = PageIndex(
    moduleKey: string,
    dir: string,
    lookup: map<string, PageId>,
    moduleName: string,
    desc: string,
    pages: seq<PageId>,
    store: seq<Page>)

  /** An output page: `{path, title, description, authors}`. */
  datatype ModulePage = ModulePage(path: string, title: string, desc: string, authors: seq<string>)

  /** An output module: `{path, name, description, pages}`. */
  datatype IndexModule = IndexModule(path: string, name: string, desc: string, pages: seq<ModulePage>)

  /** The global index: the module key list and the key-to-module map. */
  datatype Index = Index(modules: seq<string>, pages: map<string, IndexModule>)

  /** The index `WalkWithResolver` starts from. */
  function EmptyIndex(): Index {
    Index([], map[])
  }

  /** A key is listed in `modules` exactly when it has an entry in `pages`. */
  predicate Consistent(idx: Index) {
    && (forall k :: k in idx.modules ==> k in idx.pages)
    && (forall k :: k in idx.pages ==> k in idx.modules)
  }

  /** Every id on the declared page list refers to a record of the store. */
  predicate PagesValid(p: PageIndex) {
    forall i :: 0 <= i < |p.pages| ==> p.pages[i] < |p.store|
  }

  /**
   * The output pages for the ids `ids`, built one per id in order; each
   * carries the record's current path and its declared title, description
   * and authors.
   */
  function Emit(store: seq<Page>, ids: seq<PageId>): (r: seq<ModulePage>)
    requires forall i :: 0 <= i < |ids| ==> ids[i] < |store|
    ensures |r| == |ids|
    ensures forall i :: 0 <= i < |ids| ==>
              && r[i].path == store[ids[i]].path
              && r[i].title == store[ids[i]].decl.title
              && r[i].desc == store[ids[i]].decl.desc
              && r[i].authors == store[ids[i]].decl.authors
    decreases |ids|
  {
    if |ids| == 0 then []
    else
      var pg := store[ids[|ids| - 1]];
      Emit(store, ids[..|ids| - 1]) + [ModulePage(pg.path, pg.decl.title, pg.decl.desc, pg.decl.authors)]
  }

  /** The module record `Append` builds from a group's resolved state. */
  function Summary(p: PageIndex): (m: IndexModule)
    requires PagesValid(p)
    ensures |m.pages| == |p.pages|
    ensures forall i :: 0 <= i < |p.pages| ==>
              && m.pages[i].path == p.store[p.pages[i]].path
              && m.pages[i].title == p.store[p.pages[i]].decl.title
              && m.pages[i].desc == p.store[p.pages[i]].decl.desc
              && m.pages[i].authors == p.store[p.pages[i]].decl.authors
  {
    IndexModule(p.dir, p.moduleName, p.desc, Emit(p.store, p.pages))
  }

  /** Whether `BinarySearch` reports the key as already indexed. */
  function Indexed(idx: Index, key: string): bool {
    BinarySearch(idx.modules, key).1
  }

  /**
   * `Index.Append`: a reported hit leaves the index alone; a miss appends the
   * key at the END of `modules` (not at its sorted position) and stores the
   * group's module record under it.
   */
  function Append(idx: Index, p: PageIndex): (r: Index)
    requires PagesValid(p)
    ensures Indexed(idx, p.moduleKey) ==> r == idx && p.moduleKey in idx.modules
    ensures !Indexed(idx, p.moduleKey) ==> r.modules == idx.modules + [p.moduleKey]
    ensures p.moduleKey in r.modules
    ensures !Indexed(idx, p.moduleKey) ==> p.moduleKey in r.pages && r.pages[p.moduleKey] == Summary(p)
    ensures forall k :: k != p.moduleKey ==> (k in r.pages <==> k in idx.pages)
    ensures forall k :: k != p.moduleKey && k in idx.pages ==> r.pages[k] == idx.pages[k]
    ensures Sorted(idx.modules) ==> (r == idx <==> p.moduleKey in idx.modules)
    ensures Consistent(idx) ==> Consistent(r)
  {
    if Indexed(idx, p.moduleKey) then idx
    else Index(idx.modules + [p.moduleKey], idx.pages[p.moduleKey := Summary(p)])
  }

  /**
   * The record `Append` stores has one output page per declared page, in
   * declaration order; a page no content file was matched to keeps its empty
   * path instead of being dropped.
   */
  lemma SummaryKeepsEveryPage(p: PageIndex)
    requires PagesValid(p)
    ensures |Summary(p).pages| == |p.pages|
    ensures Summary(p).path == p.dir && Summary(p).name == p.moduleName && Summary(p).desc == p.desc
    ensures forall i :: 0 <= i < |p.pages| && p.store[p.pages[i]].path == "" ==> Summary(p).pages[i].path == ""
    ensures forall i :: 0 <= i < |p.pages| ==> Summary(p).pages[i].title == p.store[p.pages[i]].decl.title
  {
  }

  /**
   * On a sorted module list a miss keeps the list sorted exactly when the new
   * key is above the current last key (or the list is empty).
   */
  lemma AppendSortedness(idx: Index, p: PageIndex)
    requires PagesValid(p)
    requires Sorted(idx.modules)
    requires !Indexed(idx, p.moduleKey)
    ensures Sorted(Append(idx, p).modules) <==> |idx.modules| == 0 || Less(idx.modules[|idx.modules| - 1], p.moduleKey)
  {
    SortedAppend(idx.modules, p.moduleKey);
  }

  /**
   * Appending the same group twice is idempotent when the first append kept
   * the module list sorted.
   */
  lemma AppendTwiceWhenSorted(idx: Index, p: PageIndex)
    requires PagesValid(p)
    requires Sorted(idx.modules)
    requires |idx.modules| == 0 || Leq(idx.modules[|idx.modules| - 1], p.moduleKey)
    ensures Append(Append(idx, p), p) == Append(idx, p)
  {
    SortedAppend(idx.modules, p.moduleKey);
  }

  /**
   * Without sortedness the deduplication fails: with modules ["b", "a"] a
   * second "a" is missed, listed twice, and its record overwritten.
   */
  lemma AppendDuplicatesOnUnsorted(m1: IndexModule, m2: IndexModule, p: PageIndex)
    requires PagesValid(p) && p.moduleKey == "a"
    ensures var idx := Index(["b", "a"], map["b" := m1, "a" := m2]);
            var r := Append(idx, p);
            Consistent(idx) && r.modules == ["b", "a", "a"] && r.pages["a"] == Summary(p)
  {
    UnsortedMiss();
  }
}

=== FILE: paths.dfy ===
/**
 * The slash-separated path helpers of Go's `path/filepath` that the resolver
 * calls (`Split`, `Ext`), and the extension test of the directory walk that
 * tags each discovered file as content or manifest.
 */
module Paths {
  import opened Wrappers

  /** The index of the last '/' in `p[..n]`, or -1 when there is none. */
  function SlashStart(p: string, n: nat): (i: int)
    requires n <= |p|
    ensures -1 <= i < n
    decreases n
  {
    if n == 0 then -1
    else if p[n - 1] == '/' then n - 1
    else SlashStart(p, n - 1)
  }

  /** The scan stops at a '/', and only at the last one. */
  lemma {:induction false} SlashStartFindsLastSlash(p: string, n: nat)
    requires n <= |p|
    ensures SlashStart(p, n) >= 0 ==> p[SlashStart(p, n)] == '/'
    ensures forall k :: SlashStart(p, n) < k < n ==> p[k] != '/'
    decreases n
  {
    if n > 0 && p[n - 1] != '/' {
      SlashStartFindsLastSlash(p, n - 1);
    }
  }

  /** Characters after position `m` that are not '/' do not move the scan's result. */
  lemma {:induction false} SlashStartSkips(p: string, n: nat, m: nat)
    requires m <= n <= |p|
    requires forall k :: m <= k < n ==> p[k] != '/'
    ensures SlashStart(p, n) == SlashStart(p, m)
    decreases n
  {
    if m < n {
      SlashStartSkips(p, n - 1, m);
    }
  }

  /** The index of the last '/' in `p`, or -1 when there is none. */
  function LastSlash(p: string): (i: int)
    ensures -1 <= i < |p|
  {
    SlashStart(p, |p|)
  }

  /** `filepath.Split`: everything up to and including the last '/', and the rest. */
  function Split(p: string): (string, string) {
    var i := LastSlash(p);
    (p[..i + 1], p[i + 1..])
  }

  function Dir(p: string): string {
    Split(p).0
  }

  function Base(p: string): string {
    Split(p).1
  }

  /** The base name is the part of the path after its last '/'. */
  lemma BaseIsTail(p: string)
    ensures Base(p) == p[LastSlash(p) + 1..]
  {
  }

  /** No '/' follows the last one. */
  lemma NoSlashAfterLast(p: string)
    ensures forall k :: LastSlash(p) < k < |p| ==> p[k] != '/'
  {
    SlashStartFindsLastSlash(p, |p|);
  }

  /** The base name holds no '/'. */
  lemma BaseHasNoSlash(p: string)
    ensures forall k :: 0 <= k < |Base(p)| ==> Base(p)[k] != '/'
  {
    var i := LastSlash(p);
    var file := p[i + 1..];
    BaseIsTail(p);
    NoSlashAfterLast(p);
    forall k | 0 <= k < |file|
      ensures file[k] != '/'
    {
      assert file[k] == p[i + 1 + k];
    }
  }

  /**
   * `Split` cuts the path in two: the directory part is empty or ends in '/',
   * the base name holds no '/', and together they give back the path.
   */
  lemma SplitJoins(p: string)
    ensures Dir(p) + Base(p) == p
    ensures forall k :: 0 <= k < |Base(p)| ==> Base(p)[k] != '/'
    ensures Dir(p) == [] || Dir(p)[|Dir(p)| - 1] == '/'
  {
    var i := LastSlash(p);
    assert Dir(p) + Base(p) == p by {
      assert p[..i + 1] + p[i + 1..] == p;
    }
    BaseHasNoSlash(p);
    if i >= 0 {
      SlashStartFindsLastSlash(p, |p|);
      assert Dir(p)[|Dir(p)| - 1] == p[i];
    }
  }

  /**
   * The start of the extension of `p[..n]`: scanning backwards from `n - 1`,
   * the first '.' met before any '/', or -1 when a '/' or the start comes first.
   */
  function ExtStart(p: string, n: nat): (i: int)
    requires n <= |p|
    ensures -1 <= i < n
    decreases n
  {
    if n == 0 || p[n - 1] == '/' then -1
    else if p[n - 1] == '.' then n - 1
    else ExtStart(p, n - 1)
  }

  lemma {:induction false} ExtStartFindsLastDot(p: string, n: nat)
    requires n <= |p|
    ensures ExtStart(p, n) >= 0 ==> p[ExtStart(p, n)] == '.'
    ensures ExtStart(p, n) >= 0 ==> forall k :: ExtStart(p, n) < k < n ==> p[k] != '.' && p[k] != '/'
    decreases n
  {
    if n > 0 && p[n - 1] != '/' && p[n - 1] != '.' {
      ExtStartFindsLastDot(p, n - 1);
    }
  }

  /** `filepath.Ext`: the suffix from the final '.' of the last path element, or "" when it has none. */
  function Ext(p: string): string {
    var i := ExtStart(p, |p|);
    if i < 0 then [] else p[i..]
  }

  /** The extension is a suffix of the name that is empty or is one '.' followed by neither '.' nor '/'. */
  lemma ExtIsLastDotSuffix(p: string)
    ensures |Ext(p)| <= |p| && p[|p| - |Ext(p)|..] == Ext(p)
    ensures Ext(p) == [] || (Ext(p)[0] == '.' && forall k :: 0 < k < |Ext(p)| ==> Ext(p)[k] != '.' && Ext(p)[k] != '/')
  {
    var i := ExtStart(p, |p|);
    ExtStartFindsLastDot(p, |p|);
    if i >= 0 {
      assert forall k :: 0 < k < |Ext(p)| ==> Ext(p)[k] == p[i + k];
    }
  }

  /** A name has no extension exactly when its last path element contains no '.'. */
  lemma {:induction false} NoExtIffNoDot(p: string)
    ensures Ext(p) == [] <==> forall k :: LastSlash(p) < k < |p| ==> p[k] != '.'
  {
    NoExtScan(p, |p|);
  }

  lemma {:induction false} NoExtScan(p: string, n: nat)
    requires n <= |p|
    ensures ExtStart(p, n) < 0 <==> forall k :: SlashStart(p, n) < k < n ==> p[k] != '.'
    decreases n
  {
    if n > 0 && p[n - 1] != '/' && p[n - 1] != '.' {
      NoExtScan(p, n - 1);
    }
  }

  /** A name with its extension removed, as `name[:len(name)-len(filepath.Ext(name))]`. */
  function StripExt(name: string): string {
    name[..|name| - |Ext(name)|]
  }

  /** Stripping the extension and putting it back gives the name again. */
  lemma StripExtJoins(name: string)
    ensures StripExt(name) + Ext(name) == name
  {
    ExtIsLastDotSuffix(name);
  }

  /** The kind tag the walk gives a file: 0 (content) for `.md`, 1 (manifest) for `.toml`. */
  datatype FileKind = ContentFile | ManifestFile

  /** The walk's extension switch: `.md` and `.toml` files are kept and tagged, all others dropped. */
  function Classify(name: string): Option<FileKind> {
    match Ext(name)
    case ".md" => Some(ContentFile)
    case ".toml" => Some(ManifestFile)
    case _ => None
  }

  predicate EndsWith(s: string, suffix: string) {
    |suffix| <= |s| && s[|s| - |suffix|..] == suffix
  }

  /** A file is tagged as content exactly when its name ends in ".md". */
  lemma ContentIffMdSuffix(name: string)
    ensures Classify(name) == Some(ContentFile) <==> EndsWith(name, ".md")
  {
    var n := |name|;
    if EndsWith(name, ".md") {
      assert name[n - 1] == 'd' && name[n - 2] == 'm' && name[n - 3] == '.' by {
        assert name[n - 3..] == ".md";
      }
      assert ExtStart(name, n - 2) == n - 3;
      assert ExtStart(name, n - 1) == n - 3;
      assert ExtStart(name, n) == n - 3;
    }
  }

  /** A file is tagged as a manifest exactly when its name ends in ".toml". */
  lemma ManifestIffTomlSuffix(name: string)
    ensures Classify(name) == Some(ManifestFile) <==> EndsWith(name, ".toml")
  {
    var n := |name|;
    if EndsWith(name, ".toml") {
      assert name[n - 1] == 'l' && name[n - 2] == 'm' && name[n - 3] == 'o' && name[n - 4] == 't' && name[n - 5] == '.' by {
        assert name[n - 5..] == ".toml";
      }
      assert ExtStart(name, n - 4) == n - 5;
      assert ExtStart(name, n - 3) == n - 5;
      assert ExtStart(name, n - 2) == n - 5;
      assert ExtStart(name, n - 1) == n - 5;
      assert ExtStart(name, n) == n - 5;
    }
  }

  /** Every other file is dropped by the walk. */
  lemma OtherFilesDropped(name: string)
    ensures Classify(name) == None <==> !EndsWith(name, ".md") && !EndsWith(name, ".toml")
  {
    ContentIffMdSuffix(name);
    ManifestIffTomlSuffix(name);
  }
}

=== FILE: resolve.dfy ===
/**
 * `deepResolver` and `resolver`: per group, every manifest is decoded into the
 * page store and the lower-cased naming lookup, every content file is matched
 * against that lookup, and the group is appended to the index; over all
 * groups, the first decoding failure ends the run.
 *
 * The Go loops are written as recursion on the prefix: the state after `n`
 * iterations is one step applied to the state after `n - 1`.
 */
module Resolution {
  import opened Wrappers
  import opened Text
  import opened Paths
  import opened Docs

  /** A discovered file (`PathMetadata`): its path and its kind tag. */
  datatype FileEntry = FileEntry(path: string, kind: FileKind)

  /** One directory's files under its group key. */
  datatype Group = Group(key: string, files: seq<FileEntry>)

  /**
   * Why a group could not be resolved: a manifest that did not decode (an
   * error value), or an `index.md` with no "" lookup entry (a nil dereference).
   */
  datatype Failure = ParseError(path: string) | NilRootPage(path: string)

  /** The `PageIndex` `deepResolver` starts from: every field empty. */
  function Fresh(): PageIndex {
    PageIndex("", "", map[], "", "", [], [])
  }

  /**
   * Every id refers to a record, and every lookup entry points to a record
   * whose declared naming lower-cases to the entry's key.
   */
  predicate WellFormed(p: PageIndex) {
    && PagesValid(p)
    && forall k :: k in p.lookup ==> p.lookup[k] < |p.store| && Lower(p.store[p.lookup[k]].decl.naming) == k
  }

  /** No record has a content path yet. */
  predicate PathsClear(p: PageIndex) {
    forall id :: 0 <= id < |p.store| ==> p.store[id].path == ""
  }

  // ----- Manifests -----

  /** Among the first `n` declarations, declaration `i` owns its lower-cased key: no later one lower-cases to it too. */
  predicate LastOfKey(ds: seq<Decl>, i: nat, n: nat)
    requires i < n <= |ds|
  {
    forall j :: i < j < n ==> Lower(ds[j].naming) != Lower(ds[i].naming)
  }

  /**
   * The lookup after `_index[strings.ToLower(page.Naming)] = page` for the
   * first `n` declarations in order, the one at position `i` having id `base + i`.
   */
  function AddLookups(m: map<string, PageId>, ds: seq<Decl>, base: nat, n: nat): map<string, PageId>
    requires n <= |ds|
    decreases n
  {
    if n == 0 then m
    else AddLookups(m, ds, base, n - 1)[Lower(ds[n - 1].naming) := base + n - 1]
  }

  /** Earlier entries survive, and every declared key is present and points into this manifest's ids. */
  lemma {:induction false} LookupHasEveryKey(m: map<string, PageId>, ds: seq<Decl>, base: nat, n: nat)
    requires n <= |ds|
    ensures forall k :: k in m ==> k in AddLookups(m, ds, base, n)
    ensures forall i :: 0 <= i < n ==>
              && Lower(ds[i].naming) in AddLookups(m, ds, base, n)
              && base + i <= AddLookups(m, ds, base, n)[Lower(ds[i].naming)] < base + n
    decreases n
  {
    if n > 0 {
      LookupHasEveryKey(m, ds, base, n - 1);
    }
  }

  /** When several declarations lower-case to the same key, the last of them owns it. */
  lemma {:induction false} LookupLastDeclaredWins(m: map<string, PageId>, ds: seq<Decl>, base: nat, n: nat)
    requires n <= |ds|
    ensures forall i :: 0 <= i < n && LastOfKey(ds, i, n) ==>
              && Lower(ds[i].naming) in AddLookups(m, ds, base, n)
              && AddLookups(m, ds, base, n)[Lower(ds[i].naming)] == base + i
    decreases n
  {
    if n > 0 {
      LookupLastDeclaredWins(m, ds, base, n - 1);
      forall i | 0 <= i < n - 1 && LastOfKey(ds, i, n)
        ensures LastOfKey(ds, i, n - 1)
      {
      }
    }
  }

  /**
   * Every entry either is an earlier one no declaration replaced, or points to
   * a declaration, among the first `n`, that lower-cases to its key.
   */
  lemma {:induction false} LookupEntriesAreDeclared(m: map<string, PageId>, ds: seq<Decl>, base: nat, n: nat)
    requires n <= |ds|
    ensures forall k :: k in AddLookups(m, ds, base, n) ==>
              || (k in m && AddLookups(m, ds, base, n)[k] == m[k] && forall i :: 0 <= i < n ==> Lower(ds[i].naming) != k)
              || (base <= AddLookups(m, ds, base, n)[k] < base + n && Lower(ds[AddLookups(m, ds, base, n)[k] - base].naming) == k)
    decreases n
  {
    if n > 0 {
      LookupEntriesAreDeclared(m, ds, base, n - 1);
    }
  }

  /** Fresh records, with no path, for the first `n` declarations. */
  function FreshRecords(ds: seq<Decl>, n: nat): (r: seq<Page>)
    requires n <= |ds|
    ensures |r| == n
    decreases n
  {
    if n == 0 then [] else FreshRecords(ds, n - 1) + [Page("", ds[n - 1])]
  }

  lemma {:induction false} FreshRecordsSpec(ds: seq<Decl>, n: nat)
    requires n <= |ds|
    ensures forall i :: 0 <= i < n ==> FreshRecords(ds, n)[i] == Page("", ds[i])
    decreases n
  {
    if n > 0 {
      FreshRecordsSpec(ds, n - 1);
    }
  }

  /** The ids `base`, `base + 1`, ..., `base + n - 1`. */
  function IdRange(base: nat, n: nat): (r: seq<PageId>)
    ensures |r| == n
    decreases n
  {
    if n == 0 then [] else IdRange(base, n - 1) + [base + n - 1]
  }

  lemma {:induction false} IdRangeSpec(base: nat, n: nat)
    ensures forall i :: 0 <= i < n ==> IdRange(base, n)[i] == base + i
    decreases n
  {
    if n > 0 {
      IdRangeSpec(base, n - 1);
    }
  }

  /**
   * One decoded manifest taken into the group state: the module key and the
   * manifest's directory are set, the module name, description and page list
   * are replaced by the manifest's, its pages become fresh records appended
   * to the store, and their keys are added to the lookup.
   */
  function Absorb(key: string, p: PageIndex, path: string, m: Manifest): (r: PageIndex)
    requires WellFormed(p)
    ensures WellFormed(r)
    ensures r.moduleKey == key && r.dir == Dir(path) && r.moduleName == m.moduleName && r.desc == m.desc
    ensures |r.pages| == |m.pages| && |r.store| == |p.store| + |m.pages|
  {
    var base := |p.store|;
    var r := PageIndex(key, Dir(path), AddLookups(p.lookup, m.pages, base, |m.pages|), m.moduleName, m.desc,
                       IdRange(base, |m.pages|), p.store + FreshRecords(m.pages, |m.pages|));
    AbsorbStore(key, p, path, m, r);
    AbsorbCoherent(p, m.pages, r);
    r
  }

  /** Earlier records are kept in place, and the manifest's page `i` is the fresh record with id `|p.store| + i`. */
  lemma AbsorbStore(key: string, p: PageIndex, path: string, m: Manifest, r: PageIndex)
    requires r.pages == IdRange(|p.store|, |m.pages|) && r.store == p.store + FreshRecords(m.pages, |m.pages|)
    ensures |r.store| == |p.store| + |m.pages| && forall id :: 0 <= id < |p.store| ==> r.store[id] == p.store[id]
    ensures forall i :: 0 <= i < |m.pages| ==> r.pages[i] == |p.store| + i && r.store[r.pages[i]] == Page("", m.pages[i])
    ensures forall i :: 0 <= i < |r.pages| ==> r.pages[i] < |r.store|
  {
    var recs := FreshRecords(m.pages, |m.pages|);
    FreshRecordsSpec(m.pages, |m.pages|);
    IdRangeSpec(|p.store|, |m.pages|);
    forall i | 0 <= i < |m.pages|
      ensures r.pages[i] == |p.store| + i && r.store[r.pages[i]] == Page("", m.pages[i])
    {
      assert r.store[|p.store| + i] == recs[i];
    }
  }

  /** What `Absorb` does to the page list and the store. */
  lemma AbsorbRecords(key: string, p: PageIndex, path: string, m: Manifest)
    requires WellFormed(p)
    ensures var r := Absorb(key, p, path, m);
      && (forall id :: 0 <= id < |p.store| ==> r.store[id] == p.store[id])
      && (forall i :: 0 <= i < |m.pages| ==> r.pages[i] == |p.store| + i && r.store[r.pages[i]] == Page("", m.pages[i]))
  {
    AbsorbStore(key, p, path, m, Absorb(key, p, path, m));
  }

  /** The fresh records carry no content path, so a state without paths keeps none. */
  lemma AbsorbKeepsPathsClear(key: string, p: PageIndex, path: string, m: Manifest)
    requires WellFormed(p) && PathsClear(p)
    ensures PathsClear(Absorb(key, p, path, m))
  {
    var r := Absorb(key, p, path, m);
    AbsorbRecords(key, p, path, m);
    forall id | |p.store| <= id < |r.store|
      ensures r.store[id].path == ""
    {
      assert r.pages[id - |p.store|] == id;
    }
  }

  lemma AbsorbCoherent(p: PageIndex, ds: seq<Decl>, r: PageIndex)
    requires WellFormed(p)
    requires |r.store| == |p.store| + |ds|
    requires forall id :: 0 <= id < |p.store| ==> r.store[id] == p.store[id]
    requires forall i :: 0 <= i < |ds| ==> r.store[|p.store| + i].decl == ds[i]
    requires forall i :: 0 <= i < |r.pages| ==> r.pages[i] < |r.store|
    requires r.lookup == AddLookups(p.lookup, ds, |p.store|, |ds|)
    ensures WellFormed(r)
  {
    var base := |p.store|;
    LookupEntriesAreDeclared(p.lookup, ds, base, |ds|);
    forall k | k in r.lookup
      ensures r.lookup[k] < |r.store| && Lower(r.store[r.lookup[k]].decl.naming) == k
    {
      if base <= r.lookup[k] < base + |ds| && Lower(ds[r.lookup[k] - base].naming) == k {
        assert r.store[base + (r.lookup[k] - base)].decl == ds[r.lookup[k] - base];
      } else {
        assert k in p.lookup && r.lookup[k] == p.lookup[k];
      }
    }
  }

  /**
   * The lookup after one manifest: earlier keys stay, every declared key is
   * present, the last declaration with a key owns it, and keys the manifest
   * does not declare keep their earlier entry.
   */
  lemma AbsorbLookup(key: string, p: PageIndex, path: string, m: Manifest)
    requires WellFormed(p)
    ensures var r := Absorb(key, p, path, m);
      && (forall k :: k in p.lookup ==> k in r.lookup)
      && (forall i :: 0 <= i < |m.pages| ==> Lower(m.pages[i].naming) in r.lookup)
      && (forall i :: 0 <= i < |m.pages| && LastOfKey(m.pages, i, |m.pages|) ==> r.lookup[Lower(m.pages[i].naming)] == r.pages[i])
      && (forall k :: k in r.lookup && (forall i :: 0 <= i < |m.pages| ==> Lower(m.pages[i].naming) != k) ==>
            k in p.lookup && r.lookup[k] == p.lookup[k])
  {
    AbsorbRecords(key, p, path, m);
    LookupHasEveryKey(p.lookup, m.pages, |p.store|, |m.pages|);
    LookupLastDeclaredWins(p.lookup, m.pages, |p.store|, |m.pages|);
    LookupEntriesAreDeclared(p.lookup, m.pages, |p.store|, |m.pages|);
  }

  /** None of `files[lo..hi]` is a manifest. */
  predicate ManifestFree(files: seq<FileEntry>, lo: nat, hi: nat)
    requires lo <= hi <= |files|
  {
    forall i :: lo <= i < hi ==> files[i].kind != ManifestFile
  }

  /** A manifest whose decoding fails (`ReadPageIndex` returns an error). */
  predicate ParseFails(f: FileEntry, read: string -> Option<Manifest>) {
    f.kind == ManifestFile && read(f.path).None?
  }

  /** One iteration of the manifest loop: content files are passed over. */
  function LoadOne(key: string, p: PageIndex, f: FileEntry, read: string -> Option<Manifest>): Result<PageIndex, Failure>
    requires WellFormed(p)
  {
    if f.kind != ManifestFile then Success(p)
    else
      match read(f.path)
      case None => Failure(ParseError(f.path))
      case Some(m) => Success(Absorb(key, p, f.path, m))
  }

  /**
   * The manifest loop of `deepResolver` over the first `n` files: every
   * manifest is decoded in turn, each one overwriting the module fields and
   * the page list while the lookup accumulates; the first decoding failure
   * ends the loop.
   */
  function LoadUpTo(key: string, files: seq<FileEntry>, read: string -> Option<Manifest>, n: nat): (r: Result<PageIndex, Failure>)
    requires n <= |files|
    ensures r.Failure? <==> exists i :: 0 <= i < n && ParseFails(files[i], read)
    ensures r.Failure? ==> r.error.ParseError?
    ensures r.Success? ==> WellFormed(r.value)
    ensures ManifestFree(files, 0, n) ==> r == Success(Fresh())
    decreases n
  {
    if n == 0 then Success(Fresh())
    else
      match LoadUpTo(key, files, read, n - 1)
      case Failure(e) => Failure(e)
      case Success(p) => LoadOne(key, p, files[n - 1], read)
  }

  /** The manifest loop leaves every record without a content path. */
  lemma {:induction false} LoadPathsClear(key: string, files: seq<FileEntry>, read: string -> Option<Manifest>, n: nat)
    requires n <= |files| && LoadUpTo(key, files, read, n).Success?
    ensures PathsClear(LoadUpTo(key, files, read, n).value)
    decreases n
  {
    if n > 0 {
      LoadPathsClear(key, files, read, n - 1);
      if files[n - 1].kind == ManifestFile {
        AbsorbKeepsPathsClear(key, LoadUpTo(key, files, read, n - 1).value, files[n - 1].path, read(files[n - 1].path).value);
      }
    }
  }

  /** The manifest loop ends with the error of the FIRST manifest that fails to decode. */
  lemma {:induction false} LoadFailsAtFirst(key: string, files: seq<FileEntry>, read: string -> Option<Manifest>, n: nat, i: nat)
    requires i < n <= |files| && ParseFails(files[i], read)
    requires forall j :: 0 <= j < i ==> !ParseFails(files[j], read)
    ensures LoadUpTo(key, files, read, n) == Failure(ParseError(files[i].path))
    decreases n
  {
    if i < n - 1 {
      LoadFailsAtFirst(key, files, read, n - 1, i);
    } else {
      assert LoadUpTo(key, files, read, i).Success?;
    }
  }

  /** The manifest loop over the whole group. */
  function Load(key: string, files: seq<FileEntry>, read: string -> Option<Manifest>): Result<PageIndex, Failure> {
    LoadUpTo(key, files, read, |files|)
  }

  // ----- Content files -----

  /** The lookup key a content file is matched under: "" for `index.md`, otherwise its lower-cased name without extension. */
  function ContentKey(f: FileEntry): string {
    var name := Base(f.path);
    if name == "index.md" then "" else Lower(StripExt(name))
  }

  /**
   * Content file `f` writes its path into record `id`: it is content, its full
   * path is not itself a lookup key, and its key is present and points to `id`.
   */
  predicate Targets(lookup: map<string, PageId>, f: FileEntry, id: PageId) {
    && f.kind == ContentFile
    && f.path !in lookup
    && ContentKey(f) in lookup
    && lookup[ContentKey(f)] == id
  }

  /** Content file `f` is an `index.md` reaching the "" lookup entry when there is none: a nil dereference. */
  predicate RootMissing(lookup: map<string, PageId>, f: FileEntry) {
    && f.kind == ContentFile
    && f.path !in lookup
    && Base(f.path) == "index.md"
    && "" !in lookup
  }

  /** `q` differs from `p` at most in the paths of its records. */
  predicate SameShape(p: PageIndex, q: PageIndex) {
    && q.moduleKey == p.moduleKey && q.dir == p.dir && q.lookup == p.lookup
    && q.moduleName == p.moduleName && q.desc == p.desc && q.pages == p.pages
    && |q.store| == |p.store|
    && forall id :: 0 <= id < |p.store| ==> q.store[id].decl == p.store[id].decl
  }

  /** `page._path = metadata.Path` through the shared record `id`. */
  function Attach(p: PageIndex, id: PageId, path: string): PageIndex
    requires id < |p.store|
  {
    p.(store := p.store[id := p.store[id].(path := path)])
  }

  lemma AttachSpec(p: PageIndex, id: PageId, path: string)
    requires WellFormed(p) && id < |p.store|
    ensures SameShape(p, Attach(p, id, path)) && WellFormed(Attach(p, id, path))
    ensures forall j :: 0 <= j < |p.store| ==>
              Attach(p, id, path).store[j].path == if j == id then path else p.store[j].path
  {
    var q := Attach(p, id, path);
    forall k | k in q.lookup
      ensures q.lookup[k] < |q.store| && Lower(q.store[q.lookup[k]].decl.naming) == k
    {
      assert q.store[p.lookup[k]].decl == p.store[p.lookup[k]].decl;
    }
  }

  /**
   * One iteration of the content loop: manifests and files whose full path is
   * a lookup key are passed over; `index.md` goes to the "" entry (and fails
   * when there is none); any other file goes to the entry of its lower-cased
   * name without extension, or nowhere.
   */
  function MatchOne(p: PageIndex, f: FileEntry): (r: Result<PageIndex, Failure>)
    requires WellFormed(p)
    ensures r.Failure? <==> RootMissing(p.lookup, f)
    ensures r.Failure? ==> r.error == NilRootPage(f.path)
    ensures r.Success? ==> SameShape(p, r.value) && WellFormed(r.value)
    ensures r.Success? ==> forall id :: 0 <= id < |p.store| ==>
              r.value.store[id].path == if Targets(p.lookup, f, id) then f.path else p.store[id].path
  {
    if f.kind != ContentFile || f.path in p.lookup then Success(p)
    else if Base(f.path) == "index.md" then
      if "" in p.lookup then
        AttachSpec(p, p.lookup[""], f.path);
        Success(Attach(p, p.lookup[""], f.path))
      else Failure(NilRootPage(f.path))
    else
      var key := Lower(StripExt(Base(f.path)));
      if key in p.lookup then
        AttachSpec(p, p.lookup[key], f.path);
        Success(Attach(p, p.lookup[key], f.path))
      else Success(p)
  }

  /** None of the first `n` files targets record `id`. */
  predicate NoTarget(lookup: map<string, PageId>, files: seq<FileEntry>, n: nat, id: PageId)
    requires n <= |files|
  {
    forall i :: 0 <= i < n ==> !Targets(lookup, files[i], id)
  }

  /** `files[i]` is the last of the first `n` files that targets record `id`. */
  predicate LastTarget(lookup: map<string, PageId>, files: seq<FileEntry>, n: nat, i: nat, id: PageId)
    requires i < n <= |files|
  {
    Targets(lookup, files[i], id) && forall j :: i < j < n ==> !Targets(lookup, files[j], id)
  }

  /** The content loop of `deepResolver` over the first `n` files, stopping at the first nil dereference. */
  function MatchUpTo(p: PageIndex, files: seq<FileEntry>, n: nat): (r: Result<PageIndex, Failure>)
    requires WellFormed(p) && n <= |files|
    ensures r.Failure? <==> exists i :: 0 <= i < n && RootMissing(p.lookup, files[i])
    ensures r.Failure? ==> r.error.NilRootPage?
    ensures r.Success? ==> SameShape(p, r.value) && WellFormed(r.value)
    decreases n
  {
    if n == 0 then Success(p)
    else
      match MatchUpTo(p, files, n - 1)
      case Failure(e) => Failure(e)
      case Success(q) => MatchOne(q, files[n - 1])
  }

  /** The content loop over the whole group. */
  function MatchAll(p: PageIndex, files: seq<FileEntry>): Result<PageIndex, Failure>
    requires WellFormed(p)
  {
    MatchUpTo(p, files, |files|)
  }

  lemma MatchOneEffect(p: PageIndex, f: FileEntry, id: PageId)
    requires WellFormed(p) && MatchOne(p, f).Success? && id < |p.store|
    ensures Targets(p.lookup, f, id) ==> MatchOne(p, f).value.store[id].path == f.path
    ensures !Targets(p.lookup, f, id) ==> MatchOne(p, f).value.store[id].path == p.store[id].path
  {
  }

  /** One content-loop step on record `id`: the file's path if it targets the record, the earlier path otherwise. */
  lemma MatchStepPath(p: PageIndex, files: seq<FileEntry>, n: nat, id: PageId)
    requires WellFormed(p) && 0 < n <= |files| && MatchUpTo(p, files, n).Success? && id < |p.store|
    ensures MatchUpTo(p, files, n - 1).Success?
    ensures MatchUpTo(p, files, n).value.store[id].path
            == if Targets(p.lookup, files[n - 1], id) then files[n - 1].path else MatchUpTo(p, files, n - 1).value.store[id].path
  {
    var mid := MatchUpTo(p, files, n - 1).value;
    MatchOneEffect(mid, files[n - 1], id);
  }

  /**
   * Reference definition of the content loop on one record: the path of the
   * last of the first `n` files that targets record `id`, or `start` when
   * none does.
   */
  function PathAfter(lookup: map<string, PageId>, files: seq<FileEntry>, n: nat, id: PageId, start: string): string
    requires n <= |files|
    decreases n
  {
    if n == 0 then start
    else if Targets(lookup, files[n - 1], id) then files[n - 1].path
    else PathAfter(lookup, files, n - 1, id, start)
  }

  /** The content loop leaves each record with the path the reference definition gives. */
  lemma {:induction false} MatchFollowsPathAfter(p: PageIndex, files: seq<FileEntry>, n: nat, id: PageId)
    requires WellFormed(p) && n <= |files| && MatchUpTo(p, files, n).Success? && id < |p.store|
    ensures MatchUpTo(p, files, n).value.store[id].path == PathAfter(p.lookup, files, n, id, p.store[id].path)
    decreases n
  {
    if n > 0 {
      MatchStepPath(p, files, n, id);
      MatchFollowsPathAfter(p, files, n - 1, id);
    }
  }

  /** A record none of the first `n` files targets keeps its starting path. */
  lemma {:induction false} PathAfterUntargeted(lookup: map<string, PageId>, files: seq<FileEntry>, n: nat, id: PageId, start: string)
    requires n <= |files| && NoTarget(lookup, files, n, id)
    ensures PathAfter(lookup, files, n, id, start) == start
    decreases n
  {
    if n > 0 {
      assert !Targets(lookup, files[n - 1], id);
      PathAfterUntargeted(lookup, files, n - 1, id, start);
    }
  }

  /** A record ends with the path of the last file that targets it. */
  lemma {:induction false} PathAfterLastTarget(lookup: map<string, PageId>, files: seq<FileEntry>, n: nat, i: nat, id: PageId, start: string)
    requires i < n <= |files| && LastTarget(lookup, files, n, i, id)
    ensures PathAfter(lookup, files, n, id, start) == files[i].path
    decreases n
  {
    if i < n - 1 {
      assert !Targets(lookup, files[n - 1], id);
      assert LastTarget(lookup, files, n - 1, i, id);
      PathAfterLastTarget(lookup, files, n - 1, i, id, start);
    }
  }

  /**
   * After the content loop each record's path is that of the LAST file
   * targeting it, or unchanged when no file does: a later match overwrites an
   * earlier one and a non-matching file changes nothing.
   */
  lemma MatchLastWriterWins(p: PageIndex, files: seq<FileEntry>)
    requires WellFormed(p)
    requires MatchAll(p, files).Success?
    ensures var q := MatchAll(p, files).value;
      && (forall id :: 0 <= id < |p.store| && NoTarget(p.lookup, files, |files|, id) ==> q.store[id].path == p.store[id].path)
      && (forall i, id :: 0 <= i < |files| && 0 <= id < |p.store| && LastTarget(p.lookup, files, |files|, i, id) ==>
            q.store[id].path == files[i].path)
  {
    forall id | 0 <= id < |p.store| && NoTarget(p.lookup, files, |files|, id)
      ensures MatchAll(p, files).value.store[id].path == p.store[id].path
    {
      MatchFollowsPathAfter(p, files, |files|, id);
      PathAfterUntargeted(p.lookup, files, |files|, id, p.store[id].path);
    }
    forall i, id | 0 <= i < |files| && 0 <= id < |p.store| && LastTarget(p.lookup, files, |files|, i, id)
      ensures MatchAll(p, files).value.store[id].path == files[i].path
    {
      MatchFollowsPathAfter(p, files, |files|, id);
      PathAfterLastTarget(p.lookup, files, |files|, i, id, p.store[id].path);
    }
  }

  /** An `index.md` reaches only the "" entry, so only a page declared with an empty naming. */
  lemma RootPageOnlyToEmptyNaming(p: PageIndex, f: FileEntry, id: PageId)
    requires WellFormed(p)
    requires Base(f.path) == "index.md" && Targets(p.lookup, f, id)
    ensures id == p.lookup[""] && p.store[id].decl.naming == ""
  {
    assert |Lower(p.store[id].decl.naming)| == 0;
  }

  /**
   * Any other content file reaches a page that owns its key exactly when the
   * file's name without extension equals the page's naming up to case; a
   * page whose key a later declaration took over is reached by no file.
   */
  lemma ContentMatchesCaseInsensitively(p: PageIndex, f: FileEntry, id: PageId)
    requires WellFormed(p)
    requires f.kind == ContentFile && f.path !in p.lookup && Base(f.path) != "index.md"
    requires id < |p.store|
    ensures var key := Lower(p.store[id].decl.naming);
            (key !in p.lookup || p.lookup[key] != id) ==> !Targets(p.lookup, f, id)
    ensures var key := Lower(p.store[id].decl.naming);
            key in p.lookup && p.lookup[key] == id ==>
              (Targets(p.lookup, f, id) <==> SameUpToCase(StripExt(Base(f.path)), p.store[id].decl.naming))
  {
    var key := Lower(p.store[id].decl.naming);
    if key in p.lookup && p.lookup[key] == id {
      LowerEqIffSameUpToCase(StripExt(Base(f.path)), p.store[id].decl.naming);
    }
  }

  // ----- Manifest loading, across the whole group -----

  /** The declarations manifest file `f` contributes when it decodes, or none. */
  function Declared(f: FileEntry, read: string -> Option<Manifest>): seq<Decl> {
    if f.kind == ManifestFile && read(f.path).Some? then read(f.path).value.pages else []
  }

  /**
   * The group state after the manifest loop carries the LAST manifest's
   * directory, name, description and pages (each a fresh record with no
   * path, in declaration order), under the group key, and that manifest's
   * keys own their lookup entries.
   */
  lemma {:induction false} LoadLastManifestWins(key: string, files: seq<FileEntry>, read: string -> Option<Manifest>, n: nat, j: nat)
    requires j < n <= |files| && files[j].kind == ManifestFile && read(files[j].path).Some?
    requires ManifestFree(files, j + 1, n)
    requires LoadUpTo(key, files, read, n).Success?
    ensures var p := LoadUpTo(key, files, read, n).value;
            var m := read(files[j].path).value;
            && p.moduleKey == key && p.dir == Dir(files[j].path)
            && p.moduleName == m.moduleName && p.desc == m.desc
            && |p.pages| == |m.pages|
            && (forall i :: 0 <= i < |m.pages| ==> p.store[p.pages[i]] == Page("", m.pages[i]))
            && (forall i :: 0 <= i < |m.pages| && LastOfKey(m.pages, i, |m.pages|) ==>
                  Lower(m.pages[i].naming) in p.lookup && p.lookup[Lower(m.pages[i].naming)] == p.pages[i])
    decreases n
  {
    if n - 1 == j {
      var p0 := LoadUpTo(key, files, read, j).value;
      AbsorbRecords(key, p0, files[j].path, read(files[j].path).value);
      AbsorbLookup(key, p0, files[j].path, read(files[j].path).value);
    } else {
      LoadLastManifestWins(key, files, read, n - 1, j);
    }
  }

  /** The lower-cased namings of the first `n` declarations. */
  function NamingKeys(ds: seq<Decl>, n: nat): set<string>
    requires n <= |ds|
    decreases n
  {
    if n == 0 then {} else NamingKeys(ds, n - 1) + {Lower(ds[n - 1].naming)}
  }

  lemma {:induction false} NamingKeysSpec(ds: seq<Decl>, n: nat, s: string)
    requires n <= |ds|
    ensures s in NamingKeys(ds, n) <==> exists k :: 0 <= k < n && Lower(ds[k].naming) == s
    decreases n
  {
    if n > 0 {
      NamingKeysSpec(ds, n - 1, s);
    }
  }

  /** Adding the first `n` declarations adds exactly their lower-cased namings to the lookup's keys. */
  lemma {:induction false} LookupKeys(m: map<string, PageId>, ds: seq<Decl>, base: nat, n: nat)
    requires n <= |ds|
    ensures AddLookups(m, ds, base, n).Keys == m.Keys + NamingKeys(ds, n)
    decreases n
  {
    if n > 0 {
      LookupKeys(m, ds, base, n - 1);
    }
  }

  /** The lower-cased namings declared by the decoded manifests among the first `n` files. */
  function DeclaredKeys(files: seq<FileEntry>, read: string -> Option<Manifest>, n: nat): set<string>
    requires n <= |files|
    decreases n
  {
    if n == 0 then {}
    else
      var ds := Declared(files[n - 1], read);
      DeclaredKeys(files, read, n - 1) + NamingKeys(ds, |ds|)
  }

  lemma {:induction false} DeclaredKeysSpec(files: seq<FileEntry>, read: string -> Option<Manifest>, n: nat, s: string)
    requires n <= |files|
    ensures s in DeclaredKeys(files, read, n) <==>
            exists i :: 0 <= i < n && s in NamingKeys(Declared(files[i], read), |Declared(files[i], read)|)
    decreases n
  {
    if n > 0 {
      DeclaredKeysSpec(files, read, n - 1, s);
      var ds := Declared(files[n - 1], read);
      if s in NamingKeys(ds, |ds|) {
        assert 0 <= n - 1 < n && s in NamingKeys(Declared(files[n - 1], read), |Declared(files[n - 1], read)|);
      }
    }
  }

  /** One manifest-loop step adds exactly the file's declared namings to the lookup's keys. */
  lemma LoadOneKeys(key: string, p: PageIndex, f: FileEntry, read: string -> Option<Manifest>)
    requires WellFormed(p)
    ensures var ds := Declared(f, read);
            LoadOne(key, p, f, read).Success? ==> LoadOne(key, p, f, read).value.lookup.Keys == p.lookup.Keys + NamingKeys(ds, |ds|)
  {
    if f.kind == ManifestFile && read(f.path).Some? {
      var m := read(f.path).value;
      LookupKeys(p.lookup, m.pages, |p.store|, |m.pages|);
    }
  }

  /** After n files the lookup's keys are exactly the lower-cased namings declared so far. */
  lemma {:induction false} LoadLookupKeys(key: string, files: seq<FileEntry>, read: string -> Option<Manifest>, n: nat)
    requires n <= |files|
    ensures LoadUpTo(key, files, read, n).Success? ==> LoadUpTo(key, files, read, n).value.lookup.Keys == DeclaredKeys(files, read, n)
  {
    if n > 0 {
      LoadLookupKeys(key, files, read, n - 1);
      var prev := LoadUpTo(key, files, read, n - 1);
      if prev.Success? {
        LoadOneKeys(key, prev.value, files[n - 1], read);
      }
    }
  }

  /**
   * The lookup accumulates across every manifest of the group: its keys are
   * exactly the lower-cased namings declared by any of them.
   */
  lemma LoadLookupAccumulates(key: string, files: seq<FileEntry>, read: string -> Option<Manifest>)
    requires Load(key, files, read).Success?
    ensures forall i, k :: 0 <= i < |files| && 0 <= k < |Declared(files[i], read)| ==>
              Lower(Declared(files[i], read)[k].naming) in Load(key, files, read).value.lookup
    ensures forall s :: s in Load(key, files, read).value.lookup ==>
              exists i, k :: 0 <= i < |files| && 0 <= k < |Declared(files[i], read)| && Lower(Declared(files[i], read)[k].naming) == s
  {
    var keys := Load(key, files, read).value.lookup.Keys;
    LoadLookupKeys(key, files, read, |files|);
    forall i, k | 0 <= i < |files| && 0 <= k < |Declared(files[i], read)|
      ensures Lower(Declared(files[i], read)[k].naming) in keys
    {
      var ds := Declared(files[i], read);
      NamingKeysSpec(ds, |ds|, Lower(ds[k].naming));
      DeclaredKeysSpec(files, read, |files|, Lower(ds[k].naming));
    }
    forall s | s in keys
      ensures exists i, k :: 0 <= i < |files| && 0 <= k < |Declared(files[i], read)| && Lower(Declared(files[i], read)[k].naming) == s
    {
      DeclaredKeysSpec(files, read, |files|, s);
      var i :| 0 <= i < |files| && s in NamingKeys(Declared(files[i], read), |Declared(files[i], read)|);
      var ds := Declared(files[i], read);
      NamingKeysSpec(ds, |ds|, s);
      var k :| 0 <= k < |ds| && Lower(ds[k].naming) == s;
      assert Lower(Declared(files[i], read)[k].naming) == s;
    }
  }

  // ----- deepResolver -----

  /** A group without any manifest file. */
  predicate NoManifest(files: seq<FileEntry>) {
    ManifestFree(files, 0, |files|)
  }

  /** The module key a group is filed under: its group key, or "" when it has no manifest. */
  function FiledUnder(key: string, files: seq<FileEntry>): string {
    if NoManifest(files) then "" else key
  }

  /**
   * `deepResolver`: load every manifest, match every content file, append the
   * group to the index. A decoding failure or a nil dereference leaves the
   * index untouched; otherwise the group is filed under its group key (or ""
   * without a manifest), appending at most one module key.
   */
  function DeepResolve(key: string, files: seq<FileEntry>, read: string -> Option<Manifest>, idx: Index): (r: Result<Index, Failure>)
    requires |files| >= 1
    ensures (r.Failure? && r.error.ParseError?) <==> exists i :: 0 <= i < |files| && ParseFails(files[i], read)
    ensures r.Success? ==> FiledUnder(key, files) in r.value.modules
    ensures NoManifest(files) ==>
              (r.Failure? <==> exists i :: 0 <= i < |files| && files[i].kind == ContentFile && Base(files[i].path) == "index.md")
    ensures NoManifest(files) && r.Success? ==>
              r.value == idx || (r.value.modules == idx.modules + [""] && "" in r.value.pages && r.value.pages[""] == IndexModule("", "", "", []))
    ensures r.Success? ==> idx.modules <= r.value.modules && |r.value.modules| <= |idx.modules| + 1
    ensures r.Success? && Consistent(idx) ==> Consistent(r.value)
  {
    match Load(key, files, read)
    case Failure(e) => Failure(e)
    case Success(p) =>
      LoadFiledUnder(key, files, read);
      Resolved(p, files, idx)
  }

  function Resolved(p: PageIndex, files: seq<FileEntry>, idx: Index): (r: Result<Index, Failure>)
    requires WellFormed(p)
    ensures r.Failure? ==> r.error.NilRootPage?
    ensures r.Success? ==> p.moduleKey in r.value.modules
    ensures r.Success? ==> idx.modules <= r.value.modules && |r.value.modules| <= |idx.modules| + 1
    ensures r.Success? && Consistent(idx) ==> Consistent(r.value)
  {
    match MatchAll(p, files)
    case Failure(e) => Failure(e)
    case Success(q) => Success(Append(idx, q))
  }

  lemma LoadFiledUnder(key: string, files: seq<FileEntry>, read: string -> Option<Manifest>)
    requires Load(key, files, read).Success?
    ensures Load(key, files, read).value.moduleKey == FiledUnder(key, files)
  {
    if !NoManifest(files) {
      var j :| 0 <= j < |files| && files[j].kind == ManifestFile;
      LoadKeyIsGroupKey(key, files, read, |files|, j);
    }
  }

  lemma {:induction false} LoadKeyIsGroupKey(key: string, files: seq<FileEntry>, read: string -> Option<Manifest>, n: nat, j: nat)
    requires j < n <= |files| && files[j].kind == ManifestFile
    requires LoadUpTo(key, files, read, n).Success?
    ensures LoadUpTo(key, files, read, n).value.moduleKey == key
    decreases n
  {
    if files[n - 1].kind != ManifestFile {
      LoadKeyIsGroupKey(key, files, read, n - 1, j);
    }
  }

  /**
   * End to end for one group: `deepResolver` appends the matched state, whose
   * module record lists every page of the last manifest in declaration order
   * with its declared title, description and authors; the path is that of the
   * last content file matched to the page, or empty when none was.
   */
  lemma GroupPages(key: string, files: seq<FileEntry>, read: string -> Option<Manifest>, idx: Index)
    requires |files| >= 1
    requires Load(key, files, read).Success?
    requires MatchAll(Load(key, files, read).value, files).Success?
    ensures var p := Load(key, files, read).value;
            var q := MatchAll(p, files).value;
            var s := Summary(q);
            && DeepResolve(key, files, read, idx) == Success(Append(idx, q))
            && |s.pages| == |p.pages|
            && (forall i :: 0 <= i < |p.pages| ==>
                  && s.pages[i].title == p.store[p.pages[i]].decl.title
                  && s.pages[i].desc == p.store[p.pages[i]].decl.desc
                  && s.pages[i].authors == p.store[p.pages[i]].decl.authors
                  && (NoTarget(p.lookup, files, |files|, p.pages[i]) ==> s.pages[i].path == ""))
            && (forall i, j :: 0 <= i < |p.pages| && 0 <= j < |files| && LastTarget(p.lookup, files, |files|, j, p.pages[i]) ==>
                  s.pages[i].path == files[j].path)
  {
    var p := Load(key, files, read).value;
    LoadPathsClear(key, files, read, |files|);
    MatchLastWriterWins(p, files);
    SummaryPaths(p, MatchAll(p, files).value);
  }

  /** The record emitted for page `i` carries the matched path and the declared metadata of its record. */
  lemma SummaryPaths(p: PageIndex, q: PageIndex)
    requires WellFormed(p) && SameShape(p, q) && PagesValid(q)
    ensures |Summary(q).pages| == |p.pages|
    ensures forall i :: 0 <= i < |p.pages| ==>
              && Summary(q).pages[i].path == q.store[p.pages[i]].path
              && Summary(q).pages[i].title == p.store[p.pages[i]].decl.title
              && Summary(q).pages[i].desc == p.store[p.pages[i]].decl.desc
              && Summary(q).pages[i].authors == p.store[p.pages[i]].decl.authors
  {
  }

  // ----- resolver -----

  /** How the group loop ends: all groups done, stopped at a decoding failure, or crashed. */
  datatype Run = Completed(idx: Index) | Halted(idx: Index, error: Failure) | Panicked(error: Failure)

  /** Every group has at least one file, as the directory walk guarantees. */
  predicate NonEmptyGroups(groups: seq<Group>) {
    forall i :: 0 <= i < |groups| ==> |groups[i].files| >= 1
  }

  /**
   * The loop of `resolver` over the groups in the order the map yields them:
   * each group is resolved against the index left by the previous ones; a
   * decoding failure stops the loop, and a nil dereference crashes it.
   */
  function RunGroups(groups: seq<Group>, read: string -> Option<Manifest>, idx: Index): (r: Run)
    requires NonEmptyGroups(groups)
    ensures r.Halted? ==> r.error.ParseError?
    ensures r.Panicked? ==> r.error.NilRootPage?
    ensures !r.Panicked? ==> idx.modules <= r.idx.modules && |r.idx.modules| <= |idx.modules| + |groups|
    ensures !r.Panicked? && Consistent(idx) ==> Consistent(r.idx)
    decreases |groups|
  {
    if |groups| == 0 then Completed(idx)
    else
      match DeepResolve(groups[0].key, groups[0].files, read, idx)
      case Success(next) => RunGroups(groups[1..], read, next)
      case Failure(e) => if e.ParseError? then Halted(idx, e) else Panicked(e)
  }

  /**
   * `resolver`: the index the loop leaves, with a nil error even when a group
   * failed to decode; only the nil dereference escapes, as a crash.
   */
  function Resolve(groups: seq<Group>, read: string -> Option<Manifest>, idx: Index): (r: Result<Index, Failure>)
    requires NonEmptyGroups(groups)
    ensures r.Failure? ==> r.error.NilRootPage?
    ensures r.Success? && Consistent(idx) ==> Consistent(r.value)
    ensures r.Success? ==> idx.modules <= r.value.modules
  {
    match RunGroups(groups, read, idx)
    case Completed(i) => Success(i)
    case Halted(i, _) => Success(i)
    case Panicked(e) => Failure(e)
  }

  lemma ConcatGroups(groups: seq<Group>, rest: seq<Group>)
    requires NonEmptyGroups(groups) && NonEmptyGroups(rest)
    ensures NonEmptyGroups(groups + rest)
    ensures |groups| > 0 ==> (groups + rest)[0] == groups[0] && (groups + rest)[1..] == groups[1..] + rest
    ensures |groups| == 0 ==> groups + rest == rest
  {
    var all := groups + rest;
    assert forall i :: 0 <= i < |all| ==> all[i] == if i < |groups| then groups[i] else rest[i - |groups|];
    if |groups| > 0 {
      assert all[1..] == groups[1..] + rest;
    }
  }

  /** Once the loop has stopped, groups after it have no effect. */
  lemma {:induction false} HaltedIgnoresRest(groups: seq<Group>, rest: seq<Group>, read: string -> Option<Manifest>, idx: Index)
    requires NonEmptyGroups(groups) && NonEmptyGroups(rest)
    requires !RunGroups(groups, read, idx).Completed?
    ensures NonEmptyGroups(groups + rest)
    ensures RunGroups(groups + rest, read, idx) == RunGroups(groups, read, idx)
    decreases |groups|
  {
    ConcatGroups(groups, rest);
    var first := DeepResolve(groups[0].key, groups[0].files, read, idx);
    if first.Success? {
      HaltedIgnoresRest(groups[1..], rest, read, first.value);
    }
  }

  /** A loop that completes a prefix continues from the index that prefix left. */
  lemma {:induction false} CompletedContinues(groups: seq<Group>, rest: seq<Group>, read: string -> Option<Manifest>, idx: Index)
    requires NonEmptyGroups(groups) && NonEmptyGroups(rest)
    requires RunGroups(groups, read, idx).Completed?
    ensures NonEmptyGroups(groups + rest)
    ensures RunGroups(groups + rest, read, idx) == RunGroups(rest, read, RunGroups(groups, read, idx).idx)
    decreases |groups|
  {
    ConcatGroups(groups, rest);
    if |groups| > 0 {
      CompletedContinues(groups[1..], rest, read, DeepResolve(groups[0].key, groups[0].files, read, idx).value);
    }
  }

  /**
   * `resolver` swallows a decoding failure: when the groups before `g` all
   * resolve and `g`'s manifest does not decode, the result is the index as
   * those groups left it, with no error, whatever groups follow.
   */
  lemma ResolveSwallowsParseError(pre: seq<Group>, g: Group, post: seq<Group>, read: string -> Option<Manifest>, idx: Index)
    requires NonEmptyGroups(pre) && |g.files| >= 1 && NonEmptyGroups(post)
    requires RunGroups(pre, read, idx).Completed?
    requires exists i :: 0 <= i < |g.files| && ParseFails(g.files[i], read)
    ensures NonEmptyGroups(pre + [g] + post)
    ensures Resolve(pre + [g] + post, read, idx) == Success(RunGroups(pre, read, idx).idx)
  {
    var mid := RunGroups(pre, read, idx).idx;
    assert NonEmptyGroups([g]);
    assert RunGroups([g], read, mid) == Halted(mid, DeepResolve(g.key, g.files, read, mid).error);
    HaltedIgnoresRest([g], post, read, mid);
    CompletedContinues(pre, [g] + post, read, idx);
    assert pre + [g] + post == pre + ([g] + post);
  }
}

=== FILE: scenarios.dfy ===
/** Whole runs on small concrete directory layouts. */
module Scenarios {
  import opened Wrappers
  import opened Text
  import opened Paths
  import opened Docs
  import opened Resolution

  function StartDecl(): Decl {
    Decl("start", "Start Here", "", [])
  }

  function GuideManifest(): Manifest {
    Manifest("Guide", "", [StartDecl()])
  }

  function GuideRead(path: string): Option<Manifest> {
    if path == "g/m.toml" then Some(GuideManifest()) else None
  }

  function GuideFiles(): seq<FileEntry> {
    [FileEntry("g/m.toml", ManifestFile), FileEntry("g/start.md", ContentFile), FileEntry("g/stray.md", ContentFile)]
  }

  function GuideLoaded(): PageIndex {
    PageIndex("guide", "g/", map["start" := 0], "Guide", "", [0], [Page("", StartDecl())])
  }

  function GuideMatched(): PageIndex {
    GuideLoaded().(store := [Page("g/start.md", StartDecl())])
  }

  lemma LowerStart()
    ensures Lower("start") == "start"
  {
    assert forall i :: 0 <= i < 5 ==> !IsUpper("start"[i]);
  }

  lemma LowerStray()
    ensures Lower("stray") == "stray"
  {
    assert forall i :: 0 <= i < 5 ==> !IsUpper("stray"[i]);
  }

  lemma ManifestDir()
    ensures Dir("g/m.toml") == "g/"
  {
    var m := "g/m.toml";
    SlashStartSkips(m, |m|, 2);
    assert LastSlash(m) == 1;
  }

  lemma StartBase()
    ensures Base("g/start.md") == "start.md"
  {
    var st := "g/start.md";
    SlashStartSkips(st, |st|, 2);
    assert LastSlash(st) == 1;
  }

  lemma StartKey()
    ensures ContentKey(FileEntry("g/start.md", ContentFile)) == "start"
  {
    StartBase();
    assert ExtStart("start.md", 8) == 5;
    LowerStart();
  }

  lemma StrayKey()
    ensures ContentKey(FileEntry("g/stray.md", ContentFile)) == "stray"
  {
    var sy := "g/stray.md";
    SlashStartSkips(sy, |sy|, 2);
    assert LastSlash(sy) == 1;
    assert ExtStart("stray.md", 8) == 5;
    LowerStray();
  }

  lemma GuideLoad()
    ensures Load("guide", GuideFiles(), GuideRead) == Success(GuideLoaded())
  {
    var files := GuideFiles();
    ManifestDir();
    LowerStart();
    assert AddLookups(map[], [StartDecl()], 0, 1) == map["start" := 0];
    assert Absorb("guide", Fresh(), "g/m.toml", GuideManifest()) == GuideLoaded() by {
      var a := Absorb("guide", Fresh(), "g/m.toml", GuideManifest());
      assert a.pages[0] == 0 && a.store[0] == Page("", StartDecl());
      assert a.pages == [0] && a.store == [Page("", StartDecl())];
    }
    assert LoadUpTo("guide", files, GuideRead, 1) == Success(GuideLoaded()) by {
      assert GuideRead(files[0].path) == Some(GuideManifest());
    }
    assert LoadUpTo("guide", files, GuideRead, 2) == Success(GuideLoaded());
  }

  lemma GuideWellFormed()
    ensures WellFormed(GuideLoaded()) && WellFormed(GuideMatched())
  {
    LowerStart();
  }

  lemma MatchManifestFile()
    ensures MatchOne(GuideLoaded(), GuideFiles()[0]) == Success(GuideLoaded())
  {
    GuideWellFormed();
  }

  lemma MatchStart()
    ensures MatchOne(GuideLoaded(), GuideFiles()[1]) == Success(GuideMatched())
  {
    var p, f := GuideLoaded(), GuideFiles()[1];
    GuideWellFormed();
    StartKey();
    StartBase();
    assert Targets(p.lookup, f, 0);
    var r := MatchOne(p, f);
    assert r.Success?;
    assert r.value.store[0] == Page("g/start.md", StartDecl());
    assert r.value.store == GuideMatched().store;
  }

  lemma MatchStray()
    ensures MatchOne(GuideMatched(), GuideFiles()[2]) == Success(GuideMatched())
  {
    GuideWellFormed();
    StrayKey();
    assert "stray" !in GuideMatched().lookup;
  }

  lemma GuideMatchSteps()
    ensures WellFormed(GuideLoaded()) && WellFormed(GuideMatched())
    ensures MatchOne(GuideLoaded(), GuideFiles()[0]) == Success(GuideLoaded())
    ensures MatchOne(GuideLoaded(), GuideFiles()[1]) == Success(GuideMatched())
    ensures MatchOne(GuideMatched(), GuideFiles()[2]) == Success(GuideMatched())
  {
    GuideWellFormed();
    MatchManifestFile();
    MatchStart();
    MatchStray();
  }

  lemma GuideMatch()
    ensures WellFormed(GuideLoaded())
    ensures MatchAll(GuideLoaded(), GuideFiles()) == Success(GuideMatched())
  {
    var files := GuideFiles();
    var loaded := GuideLoaded();
    GuideMatchSteps();
    assert MatchUpTo(loaded, files, 1) == Success(loaded);
    assert MatchUpTo(loaded, files, 2) == Success(GuideMatched());
  }

  function GuideIndex(): Index {
    Index(["guide"], map["guide" := IndexModule("g/", "Guide", "", [ModulePage("g/start.md", "Start Here", "", [])])])
  }

  lemma GuideAppend()
    ensures PagesValid(GuideMatched())
    ensures Append(EmptyIndex(), GuideMatched()) == GuideIndex()
  {
    assert !Indexed(EmptyIndex(), "guide");
    assert Emit(GuideMatched().store, [0]) == [ModulePage("g/start.md", "Start Here", "", [])] by {
      assert [0][..0] == [];
    }
  }

  /**
   * A guide directory with a manifest declaring page "start", plus `start.md`
   * and `stray.md`: one module "guide" with one page carrying `start.md`'s
   * path; `stray.md` leaves no trace.
   */
  lemma GuideScenario()
    ensures DeepResolve("guide", GuideFiles(), GuideRead, EmptyIndex()) == Success(GuideIndex())
  {
    GuideLoad();
    GuideMatch();
    GuideAppend();
  }
}

/** Groups without a manifest are all filed under the empty key. */
module Collisions {
  import opened Wrappers
  import opened Text
  import opened Paths
  import opened Search
  import opened Docs
  import opened Resolution

  function LooseFiles(): seq<FileEntry> {
    [FileEntry("c/a.md", ContentFile)]
  }

  lemma LooseBase()
    ensures Base("c/a.md") == "a.md"
  {
    var f := "c/a.md";
    SlashStartSkips(f, |f|, 2);
    assert LastSlash(f) == 1;
  }

  /** A group holding one plain content file and no manifest appends the empty state. */
  lemma LooseGroup(key: string, read: string -> Option<Manifest>, idx: Index)
    ensures DeepResolve(key, LooseFiles(), read, idx) == Success(Append(idx, Fresh()))
  {
    var files := LooseFiles();
    assert Load(key, files, read) == Success(Fresh());
    LooseBase();
    assert !RootMissing(Fresh().lookup, files[0]);
    var m := MatchAll(Fresh(), files);
    assert m.Success?;
    assert m.value.store == [];
    assert m.value == Fresh();
  }

  /** The search misses "" in `["b"]`, and again in the unsorted `["b", ""]`. */
  lemma MissBelow()
    ensures !BinarySearch(["b"], "").1
    ensures !BinarySearch(["b", ""], "").1
  {
    assert !Less("b", "");
  }

  /** A manifest-less group whose "" the search misses lands one more "" at the end. */
  lemma LooseAppend(key: string, read: string -> Option<Manifest>, idx: Index)
    requires !Indexed(idx, "")
    ensures DeepResolve(key, LooseFiles(), read, idx).Success?
    ensures DeepResolve(key, LooseFiles(), read, idx).value.modules == idx.modules + [""]
  {
    LooseGroup(key, read, idx);
  }

  /**
   * After a group filed under "b", two manifest-less groups append "" twice:
   * the appended key breaks the order the binary search relies on, and the
   * second "" is not found.
   */
  lemma LooseGroupsDuplicate(read: string -> Option<Manifest>, idx: Index)
    requires idx.modules == ["b"]
    ensures var r1 := DeepResolve("c", LooseFiles(), read, idx);
            && r1.Success? && r1.value.modules == ["b", ""]
            && var r2 := DeepResolve("d", LooseFiles(), read, r1.value);
            && r2.Success? && r2.value.modules == ["b", "", ""]
  {
    MissBelow();
    LooseAppend("c", read, idx);
    var i1 := DeepResolve("c", LooseFiles(), read, idx).value;
    assert i1.modules == ["b", ""];
    LooseAppend("d", read, i1);
  }
}

=== FILE: search.dfy ===
/**
 * `slices.BinarySearch` over the index's module keys: a lower-bound search
 * that is only meaningful on an ascending slice, and that the index calls on a
 * slice it never sorts.
 */
module Search {
  import opened Text

  /** Ascending in Go's string order (duplicates allowed), the order `slices.BinarySearch` expects. */
  predicate Sorted(xs: seq<string>) {
    forall i, j :: 0 <= i < j < |xs| ==> Leq(xs[i], xs[j])
  }

  /** `i` splits `xs` into a prefix strictly below `t` and a suffix that is not. */
  ghost predicate IsLowerBound(xs: seq<string>, t: string, i: int) {
    && 0 <= i <= |xs|
    && (forall k :: 0 <= k < i ==> Less(xs[k], t))
    && (forall k :: i <= k < |xs| ==> !Less(xs[k], t))
  }

  lemma SortedBelow(xs: seq<string>, t: string, h: nat)
    requires h < |xs|
    ensures Sorted(xs) && Less(xs[h], t) ==> forall k :: 0 <= k <= h ==> Less(xs[k], t)
  {
    if Sorted(xs) && Less(xs[h], t) {
      forall k | 0 <= k < h
        ensures Less(xs[k], t)
      {
        if xs[k] != xs[h] {
          LessTransitive(xs[k], xs[h], t);
        }
      }
    }
  }

  lemma SortedAbove(xs: seq<string>, t: string, h: nat)
    requires h < |xs|
    ensures Sorted(xs) && !Less(xs[h], t) ==> forall k :: h <= k < |xs| ==> !Less(xs[k], t)
  {
    if Sorted(xs) && !Less(xs[h], t) {
      forall k | h < k < |xs|
        ensures !Less(xs[k], t)
      {
        if Less(xs[k], t) && xs[h] != xs[k] {
          LessTransitive(xs[h], xs[k], t);
        }
      }
    }
  }

  /**
   * The search loop of `slices.BinarySearch` on the window `[lo, hi)`: probe the
   * midpoint, move `lo` past it when it is below the target, otherwise move
   * `hi` down to it. On a sorted slice whose outside parts are already known
   * to lie below and not below the target, it returns the lower bound.
   */
  function LowerBound(xs: seq<string>, t: string, lo: nat, hi: nat): (i: nat)
    requires lo <= hi <= |xs|
    ensures lo <= i <= hi
    ensures (Sorted(xs) && (forall k :: 0 <= k < lo ==> Less(xs[k], t))
             && (forall k :: hi <= k < |xs| ==> !Less(xs[k], t))) ==> IsLowerBound(xs, t, i)
    decreases hi - lo
  {
    if lo < hi then
      var h := (lo + hi) / 2;
      if Less(xs[h], t) then
        SortedBelow(xs, t, h);
        LowerBound(xs, t, h + 1, hi)
      else
        SortedAbove(xs, t, h);
        LowerBound(xs, t, lo, h)
    else
      lo
  }

  lemma LowerBoundMembership(xs: seq<string>, t: string, i: int)
    ensures Sorted(xs) && IsLowerBound(xs, t, i) ==> (i < |xs| && xs[i] == t <==> t in xs)
  {
    if Sorted(xs) && IsLowerBound(xs, t, i) && t in xs {
      var k :| 0 <= k < |xs| && xs[k] == t;
      LessIrreflexive(t);
      assert i <= k;
      assert Leq(xs[i], xs[k]);
    }
  }

  /**
   * `slices.BinarySearch(xs, t)`: the insertion position and whether `t` sits
   * there. A reported hit is always genuine; on a sorted slice the flag is
   * exactly membership and the position is the lower bound.
   */
  function BinarySearch(xs: seq<string>, t: string): (r: (nat, bool))
    ensures r.0 <= |xs|
    ensures r.1 ==> r.0 < |xs| && xs[r.0] == t
    ensures Sorted(xs) ==> IsLowerBound(xs, t, r.0)
    ensures Sorted(xs) ==> (r.1 <==> t in xs)
  {
    var i := LowerBound(xs, t, 0, |xs|);
    LowerBoundMembership(xs, t, i);
    (i, i < |xs| && xs[i] == t)
  }

  /** On an unsorted slice a present key can be missed: ["b", "a"] does not report "a". */
  lemma UnsortedMiss()
    ensures "a" in ["b", "a"] && !BinarySearch(["b", "a"], "a").1
  {
    var xs := ["b", "a"];
    assert !Less(xs[1], "a") by { LessIrreflexive("a"); }
    assert LowerBound(xs, "a", 0, 1) == 0;
    assert LowerBound(xs, "a", 0, 2) == 0;
  }

  /**
   * Appending a key to a sorted slice keeps it sorted exactly when the slice
   * was empty or the key is not below its last element.
   */
  lemma SortedAppend(xs: seq<string>, key: string)
    requires Sorted(xs)
    ensures Sorted(xs + [key]) <==> |xs| == 0 || Leq(xs[|xs| - 1], key)
  {
    var ys := xs + [key];
    if |xs| > 0 && Leq(xs[|xs| - 1], key) {
      forall i, j | 0 <= i < j < |ys|
        ensures Leq(ys[i], ys[j])
      {
        if j == |xs| && i < |xs| - 1 {
          LeqTransitive(xs[i], xs[|xs| - 1], key);
        }
      }
    }
    if Sorted(ys) && |xs| > 0 {
      assert Leq(ys[|xs| - 1], ys[|xs|]);
    }
  }
}

=== FILE: text.dfy ===
/**
 * String primitives the resolver relies on: `strings.ToLower` (restricted to
 * ASCII) for the case-insensitive page keys, and Go's byte-wise string order,
 * which `slices.BinarySearch` uses on the module list.
 */
module Text {

  predicate IsUpper(c: char) {
    'A' <= c <= 'Z'
  }

  function LowerChar(c: char): char {
    if IsUpper(c) then (c as int + 32) as char else c
  }

  /** ASCII lower-casing: each upper-case letter becomes its lower-case partner, every other character stays. */
  function Lower(s: string): (r: string)
    ensures |r| == |s|
  {
    seq(|s|, i requires 0 <= i < |s| => LowerChar(s[i]))
  }

  /** No upper-case letter survives lower-casing, every other character is kept, and each letter moves to its partner 32 code points up. */
  lemma LowerSpec(s: string)
    ensures forall i :: 0 <= i < |s| ==> !IsUpper(Lower(s)[i])
    ensures forall i :: 0 <= i < |s| && !IsUpper(s[i]) ==> Lower(s)[i] == s[i]
    ensures forall i :: 0 <= i < |s| && IsUpper(s[i]) ==> Lower(s)[i] as int == s[i] as int + 32
  {
  }

  /** Two characters that are equal once case is ignored. */
  predicate SameLetter(a: char, b: char) {
    || a == b
    || (IsUpper(a) && b as int == a as int + 32)
    || (IsUpper(b) && a as int == b as int + 32)
  }

  /** Two strings that are equal once case is ignored, character by character. */
  predicate SameUpToCase(a: string, b: string) {
    |a| == |b| && forall i :: 0 <= i < |a| ==> SameLetter(a[i], b[i])
  }

  lemma LowerCharAgree(a: char, b: char)
    ensures LowerChar(a) == LowerChar(b) <==> SameLetter(a, b)
  {
  }

  /** Lower-cased keys coincide exactly when the strings differ only in the case of letters. */
  lemma {:induction false} LowerEqIffSameUpToCase(a: string, b: string)
    ensures Lower(a) == Lower(b) <==> SameUpToCase(a, b)
  {
    if Lower(a) == Lower(b) {
      forall i | 0 <= i < |a|
        ensures SameLetter(a[i], b[i])
      {
        assert Lower(a)[i] == Lower(b)[i];
        LowerCharAgree(a[i], b[i]);
      }
    }
    if SameUpToCase(a, b) {
      forall i | 0 <= i < |a|
        ensures Lower(a)[i] == Lower(b)[i]
      {
        LowerCharAgree(a[i], b[i]);
      }
    }
  }

  /** Lower-casing a key twice changes nothing more. */
  lemma LowerIdempotent(s: string)
    ensures Lower(Lower(s)) == Lower(s)
  {
  }

  /**
   * Go's `<` on strings: byte-wise lexicographic order. Characters are Unicode
   * scalar values here, and comparing UTF-8 encodings byte by byte orders them
   * exactly as comparing their code points does.
   */
  predicate Less(a: string, b: string)
    decreases |a|
  {
    |b| > 0 && (|a| == 0 || a[0] < b[0] || (a[0] == b[0] && Less(a[1..], b[1..])))
  }

  predicate Leq(a: string, b: string) {
    Less(a, b) || a == b
  }

  lemma {:induction false} LessIrreflexive(a: string)
    ensures !Less(a, a)
    decreases |a|
  {
    if |a| > 0 {
      LessIrreflexive(a[1..]);
    }
  }

  lemma {:induction false} LessTransitive(a: string, b: string, c: string)
    requires Less(a, b) && Less(b, c)
    ensures Less(a, c)
    decreases |a|
  {
    if |a| > 0 && a[0] == b[0] && b[0] == c[0] {
      LessTransitive(a[1..], b[1..], c[1..]);
    }
  }

  lemma {:induction false} LessTotal(a: string, b: string)
    ensures Less(a, b) || a == b || Less(b, a)
    decreases |a|
  {
    if |a| > 0 && |b| > 0 && a[0] == b[0] {
      LessTotal(a[1..], b[1..]);
      if a[1..] == b[1..] {
        assert a == [a[0]] + a[1..] && b == [b[0]] + b[1..];
      }
    }
  }

  lemma LeqTransitive(a: string, b: string, c: string)
    requires Leq(a, b) && Leq(b, c)
    ensures Leq(a, c)
  {
    if a != b && b != c {
      LessTransitive(a, b, c);
    }
  }

  /** `Less` is a strict total order: irreflexive, transitive and total. */
  lemma LessIsStrictTotalOrder(a: string, b: string, c: string)
    ensures !Less(a, a)
    ensures Less(a, b) && Less(b, c) ==> Less(a, c)
    ensures Less(a, b) || a == b || Less(b, a)
  {
    LessIrreflexive(a);
    if Less(a, b) && Less(b, c) {
      LessTransitive(a, b, c);
    }
    LessTotal(a, b);
  }
}

=== FILE: wrappers.dfy ===
/** Failure-carrying result types shared by the resolver model. */
module Wrappers {

  /** A value that may be absent: the decoded manifest, or nothing when decoding fails. */
  datatype Option<+T> = None | Some(value: T)

  /** Either a computed value or the error that stopped the computation. */
  datatype Result<+R, +E> = Success(value: R) | Failure(error: E)
}
